=== FILE: README.md ===
# TOPSIS with entropy weights — a Dafny model of `TopsisHandler`

`TopsisHandler` ranks a set of options (alternatives) against a set of
criteria with TOPSIS, the "technique for order of preference by similarity
to the ideal solution", weighting the criteria by Shannon entropy. Every table
it handles, from the input decision matrix to the final rating, is a list of
`Index(Option, Criterion, Value)` records in long format.

`Handle` runs ten stages. Each stage fills one field of the handler (the
distances fill two):

1. the vector-normalised matrix: each value divided by the Euclidean length
   of its criterion's column;
2. the sum-normalised matrix: each value divided by its column's total;
3. the entropy vector: one entry "e" per criterion;
4. the criteria weights: one entry "w" per criterion, `(1 - e)` divided by
   the sum of all `(1 - e)`;
5. the weighted matrix: each vector-normalised value times its criterion's
   weight;
6. the ideal profile: the largest value of each criterion;
7. the anti-ideal profile: the smallest value of each criterion;
8. each option's distance to the ideal profile, "S+", and to the anti-ideal
   profile, "S-";
9. each option's relative closeness "C", equal to `S- / (S- + S+)`;
10. the rating: the closeness entries sorted ascending and numbered down
    from the option count.

`Handle` then returns the closeness entry with the largest value.

The project has five modules, one per file:

- `Tables` (`tables.dfy`): the `Index` record and the LINQ operations the
  handler uses — `Select`, `Where`, `Sum`, `Max`, `Min`, `Distinct`, and
  `Where(...).First()` — with their properties.
- `Numerics` (`numerics.dfy`): `Math.Sqrt`, `Math.Pow`, `Math.Log` and
  `Math.Log10` as the fields of a `MathLib` parameter. The ghost predicate
  `Valid` states the few facts about them that the proofs rely on.
- `Stages` (`stages.dfy`): every stage as a pure function over tables, with
  lemmas for the TOPSIS properties of each.
- `Ranking` (`ranking.dfy`): the stable ascending `OrderBy`, the rating it
  yields, and `MaxBy`.
- `Topsis` (`topsis_handler.dfy`): the class `TopsisHandler`, with one field
  per stage and one method per C# method.
  - `Handle` runs the stages through the phase methods `Weigh`, `Rank`,
    `Profile` and `Separate`.
  - `FormRating` builds the rating with the C# code's decrementing counter
    as a loop.
  - Every method states the new value of each field it assigns, as a stage
    function of the earlier fields.
  - The pure function `Run` gives the whole computation on values: either
    the table of every stage, the rating included, and the entry `Handle`
    returns; or the first stage that would divide by zero or take the
    logarithm of a non-positive share.
  - `Handle`'s postcondition fixes every field as a function of the
    constructor's decision matrix. Calling `Handle` twice therefore leaves
    the same state and returns the same entry.

Where the C# code departs from textbook TOPSIS, the model follows the code:

- The anti-ideal profile is labelled "A+", like the ideal one.
- The entropy's scale factor is `1 / log10(n)`, while its terms use the
  natural logarithm.
- Zero divisors and logarithms of non-positive shares are not checked. The
  C# code produces NaN or infinity and carries it into every later stage;
  the model turns each into a `Run` failure and into a precondition of the
  method concerned.
- Among options tied on the largest closeness, `MaxBy` returns the first
  while the rating gives rank 1 to the last (`MaxByRankedFirst`).

## Model

| member | source | states |
|---|---|---|
| Tables.Distinct | src/TopsisHandler.cs:139 | `Distinct()` keeps exactly the elements of its input, each once. |
| Tables.DistinctFirstAppearance | src/TopsisHandler.cs:171 | `Distinct()` lists the elements in order of their first appearance in the input. |
| Tables.FirstByCriterionIsFirst | src/TopsisHandler.cs:165 | `Where(w => w.Criterion == c).First()` returns an entry of the table in column `c`, and no earlier entry is in that column. |
| Tables.FirstByOptionIsFirst | src/TopsisHandler.cs:239 | `Where(y => y.Option == a).First()` returns an entry of the table in row `a`, and no earlier entry is in that row. |
| Tables.SeqMax | src/TopsisHandler.cs:177 | `Max()` of a non-empty column is one of its values and no value exceeds it. |
| Tables.SeqMin | src/TopsisHandler.cs:189 | `Min()` of a non-empty column is one of its values and no value is below it. |
| Stages.NormalizedVectorDecisionMatrix | src/TopsisHandler.cs:111-119 | The vector-normalised matrix keeps every entry's option and criterion, in order. An entry is 0 exactly when the input value is 0. |
| Stages.VectorColumnsUnit | src/TopsisHandler.cs:117 | After vector normalisation, the squares of every criterion's column sum to 1. |
| Stages.NormalizedDecisionMatrix | src/TopsisHandler.cs:121-129 | The sum-normalised matrix keeps every entry's option and criterion, in order. |
| Stages.NormalizedColumnsSumToOne | src/TopsisHandler.cs:127 | After sum normalisation, every criterion's column sums to 1. |
| Stages.NormalizedPositive | src/TopsisHandler.cs:127 | On positive input no column total is 0, and every sum-normalised value lies in (0, 1]. |
| Stages.EntropyVectorEntries | src/TopsisHandler.cs:131-140 | Deduplicating the per-row entropies leaves one entry "e" per distinct criterion, in first-appearance order. Each holds `-1/log10(n)` times the sum of `p ln p` over that criterion's column, with `n` the number of distinct options. |
| Stages.Divergences | src/TopsisHandler.cs:144-149 | Each divergence keeps its entropy entry's labels, and divergence plus entropy is 1. |
| Stages.EvaluationCriteriaWeights | src/TopsisHandler.cs:151-156 | There is one weight per entropy entry, labelled "w" under that entry's criterion. |
| Stages.WeightsSumToOne | src/TopsisHandler.cs:151-156 | The criteria weights sum to 1. |
| Stages.WeightedNormalizedDecisionMatrix | src/TopsisHandler.cs:159-167 | The weighted matrix keeps every entry's option and criterion, in order. |
| Stages.WeightedKeepsOrder | src/TopsisHandler.cs:165 | Within a criterion whose weight is non-negative, weighting keeps the order of the values. |
| Stages.ColumnMax | src/TopsisHandler.cs:177 | The column maximum bounds every entry of the criterion and is attained by one of them. |
| Stages.ColumnMin | src/TopsisHandler.cs:189 | The column minimum is at most every entry of the criterion and is attained by one of them. |
| Stages.PerfectSolutions | src/TopsisHandler.cs:169-179 | The ideal profile has one entry "A+" per distinct criterion, in first-appearance order, so it covers every criterion. Each entry is at least every weighted value of its criterion and equals one of them. |
| Stages.WorstSolutions | src/TopsisHandler.cs:181-191 | The anti-ideal profile has one entry per distinct criterion, in first-appearance order and labelled "A+" as in the code, so it covers every criterion. Each entry is at most every weighted value of its criterion and equals one of them. |
| Stages.WorstBelowPerfect | src/TopsisHandler.cs:169-191 | Entry by entry, the two profiles list the same criteria, and the anti-ideal value never exceeds the ideal one. |
| Stages.SquaresOfDifference | src/TopsisHandler.cs:197-203 | The squared differences to a profile keep every entry's option and criterion, in order. |
| Stages.IntuitiveProximity | src/TopsisHandler.cs:193-231 | The distance table has one entry per distinct option, in first-appearance order, under the given label ("S+" or "S-"). |
| Stages.ProximityZero | src/TopsisHandler.cs:209 | Every distance is non-negative. It is 0 exactly when every value of that option equals the profile's value for its criterion. |
| Stages.RelativeProximityCoefficient | src/TopsisHandler.cs:233-241 | There is one closeness entry "C" per entry of the S- table, under that entry's option. |
| Stages.ClosenessBounds | src/TopsisHandler.cs:239 | With non-negative distances, each closeness lies in [0, 1]. It is 1 exactly when the option's S+ is 0, and 0 exactly when its S- is 0. |
| Ranking.OrderBy | src/TopsisHandler.cs:246 | `OrderBy(x => x.Value)` returns a rearrangement of its input, with the values in ascending order. |
| Ranking.Rating | src/TopsisHandler.cs:243-252 | The rating has one entry per closeness entry, each labelled "Rank". |
| Ranking.RatingEntry | src/TopsisHandler.cs:246-250 | Every closeness entry appears in the rating under its own option, with rank `n` minus its place in the sort. |
| Ranking.RankOrder | src/TopsisHandler.cs:246-250 | Of two options, the one with the strictly larger closeness gets the smaller rank. On equal closeness, the later option gets the smaller rank. The converse holds too. |
| Ranking.RanksArePermutation | src/TopsisHandler.cs:245-250 | When `n` is the number of closeness entries, the ranks are distinct whole numbers in 1..n, so they are a permutation of 1..n. |
| Ranking.MaxByIndex | src/TopsisHandler.cs:108 | `MaxBy(x => x.Value)` picks a position holding the largest value, and every earlier value is strictly smaller, so it is the first maximum. |
| Ranking.MaxBy | src/TopsisHandler.cs:108 | The returned entry is one of the closeness entries, and no closeness exceeds it. |
| Ranking.MaxByRankedFirst | src/TopsisHandler.cs:98-108 | The entry `Handle` returns has rank 1 exactly when no later option ties with it. |
| Topsis.Run | src/TopsisHandler.cs:58-109 | A successful computation leaves no zero divisor in any stage and no non-positive share under the logarithm (`Weighable` and `Separable` hold), and yields one closeness per distinct option of a non-empty input. |
| Topsis.Weighted | src/TopsisHandler.cs:159-167 | The weighted matrix computed from the input keeps the input's labels, entry by entry. |
| Topsis.Closeness | src/TopsisHandler.cs:233-241 | The closeness table computed from the input has one entry per distinct option. |
| Topsis.WeightsCover | src/TopsisHandler.cs:165 | Every criterion of the vector-normalised matrix has a weight, so the `First()` lookup of line 165 never fails. |
| Topsis.DistancesPaired | src/TopsisHandler.cs:239 | Every option of the S- table has an S+ entry, so the `First()` lookup of line 239 never fails. |
| Topsis.PositiveInputNormalizes | src/TopsisHandler.cs:111-140 | With positive values and at least two options, neither normalisation and not the entropy's scale factor divides by zero, and every share under the logarithm is positive. |
| Topsis.PositiveInputFailures | src/TopsisHandler.cs:58-109 | With positive values and at least two options, the computation can only fail because the divergences sum to 0 or because some option's two distances sum to 0. |
| Topsis.SingleOptionFails | src/TopsisHandler.cs:137 | With positive values and a single option, the computation fails at the entropy's scale factor, because `log10(1)` is 0. |
| Topsis.ZeroValueFails | src/TopsisHandler.cs:138 | A zero value anywhere in the decision matrix makes the computation fail, at the latest when its share of 0 reaches `Math.Log`. |
| Topsis.PositiveNorm | src/TopsisHandler.cs:117 | On positive input, every criterion's column has non-zero Euclidean length. |
| Topsis.ClosenessInUnitInterval | src/TopsisHandler.cs:233-241 | Whenever the computation succeeds, every relative closeness lies in [0, 1]. |
| Topsis.TopsisHandler.constructor | src/TopsisHandler.cs:22-25 | The handler keeps the given decision matrix, and no stage has been computed yet. |
| Topsis.TopsisHandler.Handle | src/TopsisHandler.cs:58-109 | Every field holds its stage of the computation on the decision matrix: `Run` on that matrix succeeds with exactly the stage tables left in the eleven fields and the returned entry, and the closeness table has one entry per option. The rating is the stable ascending ranking counted down from the option count. The returned entry is the first closeness maximum. |
| Topsis.TopsisHandler.Weigh | src/TopsisHandler.cs:64-80 | The two normalisations, the entropy vector, the weights and the weighted matrix are those of the decision matrix. |
| Topsis.TopsisHandler.Rank | src/TopsisHandler.cs:84-108 | The profiles, distances, closeness table and rating are computed from the weighted matrix. The returned entry is the first closeness maximum. The earlier stages are unchanged. |
| Topsis.TopsisHandler.Profile | src/TopsisHandler.cs:84-90 | The ideal and anti-ideal profiles are those of the weighted matrix, and nothing else changes. |
| Topsis.TopsisHandler.Separate | src/TopsisHandler.cs:92-96 | The S+ and S- tables measure the weighted matrix against the two profiles, and the closeness table is computed from them. Nothing else changes. |
| Topsis.TopsisHandler.CalculateNormalizedVectorDecisionMatrix | src/TopsisHandler.cs:111-119 | The field holds the vector normalisation of the decision matrix. |
| Topsis.TopsisHandler.CalculateNormalizedDecisionMatrix | src/TopsisHandler.cs:121-129 | The field holds the sum normalisation of the decision matrix; earlier stages are unchanged. |
| Topsis.TopsisHandler.CalculateEntropyVector | src/TopsisHandler.cs:131-140 | Given positive shares and a non-zero `log10` of the option count, the field holds the entropy vector of the sum-normalised matrix; earlier stages are unchanged. |
| Topsis.TopsisHandler.CalculateEvaluationCriteriaWeights | src/TopsisHandler.cs:142-157 | The field holds the weights derived from the entropy vector; earlier stages are unchanged. |
| Topsis.TopsisHandler.CalculateWeightedNormalizedDecisionMatrix | src/TopsisHandler.cs:159-167 | The field holds the vector-normalised matrix scaled by the weights; earlier stages are unchanged. |
| Topsis.TopsisHandler.CalculatePerfectSolutions | src/TopsisHandler.cs:169-179 | The field holds the ideal profile of the weighted matrix. |
| Topsis.TopsisHandler.CalculateWorstSolutions | src/TopsisHandler.cs:181-191 | The field holds the anti-ideal profile of the weighted matrix. |
| Topsis.TopsisHandler.CalculateIntuitiveProximityToIdealSolution | src/TopsisHandler.cs:193-211 | The field holds each option's distance "S+" to the ideal profile. |
| Topsis.TopsisHandler.CalculateIntuitiveProximityToWorstSolution | src/TopsisHandler.cs:213-231 | The field holds each option's distance "S-" to the anti-ideal profile. |
| Topsis.TopsisHandler.CalculateRelativeProximityCoefficient | src/TopsisHandler.cs:233-241 | The field holds each option's relative closeness computed from the two distance tables. |
| Topsis.TopsisHandler.FormRating | src/TopsisHandler.cs:243-252 | The loop with the decrementing counter builds exactly the stable ascending ranking counted down from the number of distinct options. All other fields are unchanged. |

## Left out

- `PrintMatrix` and the `_print` flag (lines 20, 27-56 and the `PrintMatrix` calls in `Handle`): console output only, with no effect on any field or on the result.
- Floating point: values are mathematical reals, so rounding, NaN and infinity are not modelled.
- `Math.Sqrt`, `Math.Pow`, `Math.Log` and `Math.Log10` are parameters. Only the facts in `Valid` are assumed: square root, a second power is non-negative and zero only at zero, and `log10` is 0 at 1 and positive above 1; nothing is assumed about the natural logarithm. Concrete values are not modelled.
- Topsis.TopsisHandler.Handle: requires that no stage divides by zero and that every share under `Math.Log` is positive (`Weighable` and `Separable`; exactly the cases where `Run` succeeds). The C# code has no such check and would carry NaN or infinity into later stages.
- Topsis.TopsisHandler.Handle: requires a non-empty decision matrix, through `Weighable`, so `MaxBy` never meets an empty list. In C# it would return null.
- The per-stage `Calculate` methods carry the same zero-divisor, logarithm-domain and lookup preconditions. The `First()` lookups at lines 165, 202, 222 and 239 can throw in C#; here they are preconditions (`Covers`, `Paired`), discharged by `WeightsCover`, `PerfectSolutions`/`WorstSolutions` and `DistancesPaired`.
- The fields are null until `Handle` assigns them; the model starts them as empty tables.
- The definition of `Index`, which `TopsisHandler.cs` does not show, is not part of this model. `Index` is taken as a record with value equality, which the entropy stage's `Distinct()` relies on.
- Entropy in [0, 1] and non-negative weights are not proved: both depend on the values of the logarithms, which are parameters here. `WeightedKeepsOrder` therefore assumes its weight non-negative.
- Monotonicity of closeness (raising an option's value does not lower its closeness) is not modelled; it depends on real analysis of the square root beyond what `Valid` states.
- No known-answer example (three options, two criteria) is modelled: its numbers depend on concrete logarithm values.
- `Handle` is split into the phase methods `Weigh`, `Rank`, `Profile` and `Separate`. These call the `Calculate` methods in the C# order. Each phase method also states which fields it leaves unchanged.

=== FILE: numerics.dfy ===
/**
 * The floating-point library calls of the pipeline (`Math.Sqrt`, `Math.Pow`,
 * `Math.Log`, `Math.Log10`) as parameters: a `MathLib` value carries one
 * function for each, and `Valid` lists the few facts about them that the
 * proofs rely on. Nothing else about these functions is assumed, so every
 * result holds for any library that satisfies `Valid`.
 */
module Numerics {

  datatype MathLib = MathLib(
    sqrt: real -> real,
    pow: (real, real) -> real,
    log: real -> real,
    log10: real -> real)

  /** `Math.Sqrt(x)` */
  function Sqrt(math: MathLib, x: real): real
  {
    math.sqrt(x)
  }

  /** `Math.Pow(x, y)` */
  function Pow(math: MathLib, x: real, y: real): real
  {
    math.pow(x, y)
  }

  /** `Math.Log(x)`, the natural logarithm. */
  function Log(math: MathLib, x: real): real
  {
    math.log(x)
  }

  /** `Math.Log10(x)` */
  function Log10(math: MathLib, x: real): real
  {
    math.log10(x)
  }

  /** The facts about the library the proofs use: the square root of a
      non-negative number is a non-negative number whose square gives it
      back, a second power is non-negative and zero only at zero, and the
      decimal logarithm is 0 at 1 and positive above 1. */
  ghost predicate Valid(math: MathLib)
  {
    (forall x :: 0.0 <= x ==>
       0.0 <= Sqrt(math, x) && Sqrt(math, x) * Sqrt(math, x) == x &&
       (Sqrt(math, x) == 0.0 <==> x == 0.0)) &&
    (forall x :: 0.0 <= Pow(math, x, 2.0) && (Pow(math, x, 2.0) == 0.0 <==> x == 0.0)) &&
    (forall x :: 1.0 < x ==> 0.0 < Log10(math, x)) &&
    Log10(math, 1.0) == 0.0
  }

  /** The square-root facts of `Valid` at one point. */
  lemma SqrtAt(math: MathLib, x: real)
    requires Valid(math) && 0.0 <= x
    ensures 0.0 <= Sqrt(math, x) && Sqrt(math, x) * Sqrt(math, x) == x
    ensures Sqrt(math, x) == 0.0 <==> x == 0.0
  {
  }

  /** The second-power facts of `Valid` at one point. */
  lemma PowAt(math: MathLib, x: real)
    requires Valid(math)
    ensures 0.0 <= Pow(math, x, 2.0)
    ensures Pow(math, x, 2.0) == 0.0 <==> x == 0.0
  {
  }

  // ---------------------------------------------------------------------
  // Small facts about real division, kept apart so that each proof
  // obligation has a single non-linear step.

  lemma DivSum(a: real, b: real, t: real)
    requires t != 0.0
    ensures (a + b) / t == a / t + b / t
  {
  }

  lemma ZeroDiv(t: real)
    requires t != 0.0
    ensures 0.0 / t == 0.0
  {
  }

  lemma DivSelf(t: real)
    requires t != 0.0
    ensures t / t == 1.0
  {
  }

  lemma DivAtMostOne(a: real, t: real)
    requires 0.0 < a <= t
    ensures 0.0 < a / t <= 1.0
  {
  }

  lemma MulMonotone(a: real, b: real, w: real)
    requires a <= b && 0.0 <= w
    ensures a * w <= b * w
  {
  }

  /** `(x / t)^2 == x^2 / q` where `q` is `t^2`. */
  lemma SquareDivided(x: real, t: real, q: real)
    requires t != 0.0 && q == t * t && q != 0.0
    ensures (x / t) * (x / t) == (x * x) / q
  {
  }

  /** The square `q` of a non-zero number is positive. */
  lemma SquarePositive(x: real, q: real)
    requires x != 0.0 && q == x * x
    ensures 0.0 < q
    decreases if x < 0.0 then 1 else 0
  {
    if x < 0.0 {
      SquarePositive(-x, q);
    } else {
      calc {
        q;
      ==
        x * x;
      >
        0.0 * x;
      ==
        0.0;
      }
    }
  }

  /** The square `q` of any number is non-negative. */
  lemma SquareNonNegative(x: real, q: real)
    requires q == x * x
    ensures 0.0 <= q
  {
    if x != 0.0 {
      SquarePositive(x, q);
    }
  }

  /** `a / (a + b)` of two non-negative numbers lies in [0, 1]; it is 0
      exactly when `a` is and 1 exactly when `b` is. */
  lemma Ratio(a: real, b: real)
    requires 0.0 <= a && 0.0 <= b && a + b != 0.0
    ensures 0.0 <= a / (a + b) <= 1.0
    ensures a / (a + b) == 0.0 <==> a == 0.0
    ensures a / (a + b) == 1.0 <==> b == 0.0
  {
  }
}

=== FILE: ranking.dfy ===
/**
 * The last two steps of the handler: ranking the options by relative
 * closeness (`FormRating`: a stable ascending `OrderBy` on the closeness,
 * numbered downwards from the option count) and picking the best option
 * (`MaxBy` on the closeness).
 *
 * The sort is described by positions: `Order(c, |c|)` lists the positions
 * of `c` in the order `OrderBy(x => x.Value)` visits them.
 */
module Ranking {
  import opened Tables

  /** Entry `j` of `c` is visited before entry `k` by the stable ascending
      sort on values: a smaller value, or an equal value at an earlier position. */
  predicate Before(c: seq<Index>, j: nat, k: nat)
    requires j < |c| && k < |c|
  {
    c[j].value < c[k].value || (c[j].value == c[k].value && j < k)
  }

  /** `o` lists positions of `c` in the order of `Before`. */
  predicate SortedPositions(c: seq<Index>, o: seq<nat>)
  {
    (forall p :: 0 <= p < |o| ==> o[p] < |c|) &&
    (forall p, q :: 0 <= p < q < |o| ==> Before(c, o[p], o[q]))
  }

  /** Inserts position `j`, which lies after every position already in `o`,
      where the stable sort puts it. */
  function Insert(c: seq<Index>, o: seq<nat>, j: nat): (r: seq<nat>)
    requires j < |c| && SortedPositions(c, o)
    requires forall p :: 0 <= p < |o| ==> o[p] < j
    ensures SortedPositions(c, r)
    ensures |r| == |o| + 1
    ensures forall x: int :: x in r <==> x in o || x == j
  {
    if o == [] then [j]
    else if c[j].value < c[o[0]].value then [j] + o
    else
      var r := [o[0]] + Insert(c, o[1..], j);
      assert forall p :: 1 <= p < |r| ==> r[p] in o[1..] || r[p] == j;
      r
  }

  /** The positions `0 .. n - 1` of `c`, in the order of the stable sort. */
  function Order(c: seq<Index>, n: nat): (o: seq<nat>)
    requires n <= |c|
    ensures SortedPositions(c, o)
    ensures |o| == n
    ensures forall x: int :: x in o <==> 0 <= x < n
  {
    if n == 0 then []
    else
      var o := Order(c, n - 1);
      assert forall p :: 0 <= p < |o| ==> o[p] in o;
      Insert(c, o, n - 1)
  }

  /** The entries of `c` at the positions `o`, in that order. */
  function Pick(c: seq<Index>, o: seq<nat>): (r: seq<Index>)
    requires forall p :: 0 <= p < |o| ==> o[p] < |c|
  {
    seq(|o|, p requires 0 <= p < |o| => c[o[p]])
  }

  /** `OrderBy(x => x.Value)`: the entries of `c` in stable ascending order of
      value, which is a rearrangement of `c`. */
  function OrderBy(c: seq<Index>): (r: seq<Index>)
    ensures |r| == |c|
    ensures forall p, q :: 0 <= p < q < |r| ==> r[p].value <= r[q].value
    ensures multiset(r) == multiset(c)
  {
    OrderPermutes(c, |c|);
    assert c[..|c|] == c;
    Pick(c, Order(c, |c|))
  }

  /** Picking the sorted positions `0 .. n - 1` rearranges `c[..n]`. */
  lemma {:induction false} OrderPermutes(c: seq<Index>, n: nat)
    requires n <= |c|
    ensures multiset(Pick(c, Order(c, n))) == multiset(c[..n])
  {
    if n > 0 {
      var o := Order(c, n - 1);
      assert forall p :: 0 <= p < |o| ==> o[p] < n - 1 by {
        assert forall p :: 0 <= p < |o| ==> o[p] in o;
      }
      calc {
        multiset(Pick(c, Order(c, n)));
      == { assert Order(c, n) == Insert(c, o, n - 1); InsertPermutes(c, o, n - 1); }
        multiset(Pick(c, o)) + multiset{c[n - 1]};
      == { OrderPermutes(c, n - 1); }
        multiset(c[..n - 1]) + multiset{c[n - 1]};
      == { assert c[..n] == c[..n - 1] + [c[n - 1]]; }
        multiset(c[..n]);
      }
    }
  }

  /** Inserting position `j` adds the entry `c[j]` to the picked entries. */
  lemma {:induction false} InsertPermutes(c: seq<Index>, o: seq<nat>, j: nat)
    requires j < |c| && SortedPositions(c, o)
    requires forall p :: 0 <= p < |o| ==> o[p] < j
    ensures multiset(Pick(c, Insert(c, o, j))) == multiset(Pick(c, o)) + multiset{c[j]}
  {
    if o != [] {
      if c[j].value < c[o[0]].value {
        PickCons(c, j, o);
      } else {
        var o' := o[1..];
        assert SortedPositions(c, o');
        InsertPermutes(c, o', j);
        InsertSkips(c, o, j);
        PickCons(c, o[0], o');
        assert o == [o[0]] + o';
      }
    }
  }

  /** Position `j` goes behind the first position of `o` when its value is no
      smaller, so the first picked entry stays in front. */
  lemma InsertSkips(c: seq<Index>, o: seq<nat>, j: nat)
    requires j < |c| && SortedPositions(c, o) && o != []
    requires forall p :: 0 <= p < |o| ==> o[p] < j
    requires c[o[0]].value <= c[j].value
    ensures SortedPositions(c, o[1..]) && forall p :: 0 <= p < |o[1..]| ==> o[1..][p] < j
    ensures Pick(c, Insert(c, o, j)) == [c[o[0]]] + Pick(c, Insert(c, o[1..], j))
  {
    assert SortedPositions(c, o[1..]);
    var r := Insert(c, o[1..], j);
    assert Insert(c, o, j) == [o[0]] + r;
    PickCons(c, o[0], r);
  }

  lemma PickCons(c: seq<Index>, x: nat, o: seq<nat>)
    requires x < |c| && forall p :: 0 <= p < |o| ==> o[p] < |c|
    ensures Pick(c, [x] + o) == [c[x]] + Pick(c, o)
  {
  }

  // ---------------------------------------------------------------------
  // FormRating

  /** The closeness entries sorted ascending and stably, then numbered down
      from `n` by a counter: the entry in sorted place `p` keeps its option
      and receives rank `n - p` under the criterion "Rank". */
  function Rating(n: int, c: seq<Index>): (r: seq<Index>)
    ensures |r| == |c|
    ensures forall p :: 0 <= p < |r| ==> r[p].criterion == "Rank"
  {
    var s := OrderBy(c);
    seq(|s|, p requires 0 <= p < |s| => Index(s[p].option, "Rank", (n - p) as real))
  }

  /** The place of entry `j` of `c` in the sorted order. */
  function Place(c: seq<Index>, j: nat): (p: nat)
    requires j < |c|
    ensures p < |c| && Order(c, |c|)[p] == j
  {
    IndexOf(Order(c, |c|), j)
  }

  /** The rank `FormRating` gives entry `j` of `c` when counting down from `n`. */
  function RankOf(n: int, c: seq<Index>, j: nat): real
    requires j < |c|
  {
    (n - Place(c, j)) as real
  }

  /** Entry `j` of `c` appears in the rating, under its own option, with rank
      `RankOf(n, c, j)`. */
  lemma RatingEntry(n: int, c: seq<Index>, j: nat)
    requires j < |c|
    ensures Rating(n, c)[Place(c, j)] == Index(c[j].option, "Rank", RankOf(n, c, j))
  {
  }

  /** Of two entries, the one the stable ascending sort visits later gets the
      smaller (better) rank: a larger closeness, or an equal closeness at a
      later position. */
  lemma RankOrder(n: int, c: seq<Index>, j: nat, k: nat)
    requires j < |c| && k < |c| && j != k
    ensures RankOf(n, c, j) < RankOf(n, c, k) <==> Before(c, k, j)
  {
    var o := Order(c, |c|);
    var pj, pk := Place(c, j), Place(c, k);
    if pk < pj {
      assert Before(c, o[pk], o[pj]);
    } else {
      assert Before(c, o[pj], o[pk]);
    }
  }

  /** When `n` is the number of entries, the ranks are `n` distinct whole
      numbers between 1 and `n`: a permutation of `1 .. n`. */
  lemma RanksArePermutation(c: seq<Index>)
    ensures forall p :: 0 <= p < |c| ==>
      Rating(|c|, c)[p].value == Rating(|c|, c)[p].value.Floor as real &&
      1.0 <= Rating(|c|, c)[p].value <= |c| as real
    ensures forall p, q :: 0 <= p < q < |c| ==> Rating(|c|, c)[p].value != Rating(|c|, c)[q].value
  {
  }

  // ---------------------------------------------------------------------
  // MaxBy

  /** The position `MaxBy(x => x.Value)` picks: it scans forward and replaces
      its candidate only on a strictly larger value, so it lands on the first
      maximal entry. */
  function MaxByIndex(c: seq<Index>): (i: nat)
    requires |c| > 0
    ensures i < |c|
    ensures forall j :: 0 <= j < |c| ==> c[j].value <= c[i].value
    ensures forall j :: 0 <= j < i ==> c[j].value < c[i].value
  {
    if |c| == 1 then 0
    else
      var m := MaxByIndex(c[..|c| - 1]);
      if c[|c| - 1].value > c[m].value then |c| - 1 else m
  }

  /** `MaxBy(x => x.Value)` of a non-empty sequence. */
  function MaxBy(c: seq<Index>): (r: Index)
    requires |c| > 0
    ensures r in c && forall j :: 0 <= j < |c| ==> c[j].value <= r.value
  {
    c[MaxByIndex(c)]
  }

  /** The entry `MaxBy` returns is ranked 1 exactly when no later entry ties
      with it: among equal closenesses `MaxBy` picks the first, while the
      stable sort gives rank 1 to the last. */
  lemma MaxByRankedFirst(c: seq<Index>)
    requires |c| > 0
    ensures RankOf(|c|, c, MaxByIndex(c)) == 1.0 <==>
      forall k :: MaxByIndex(c) < k < |c| ==> c[k].value < c[MaxByIndex(c)].value
  {
    var n, i := |c|, MaxByIndex(c);
    var o := Order(c, n);
    var pi := Place(c, i);
    if pi == n - 1 {
      forall k | i < k < n
        ensures c[k].value < c[i].value
      {
        assert k in o;
        var pk := Place(c, k);
        assert pk < pi;
        assert Before(c, o[pk], o[pi]);
      }
    } else {
      var k := o[n - 1];
      assert Before(c, o[pi], o[n - 1]);
      assert k != i && i < k && c[k].value == c[i].value;
    }
  }
}

=== FILE: stages.dfy ===
/**
 * The stages of TOPSIS with entropy weights, one function per private
 * `Calculate*` method of `TopsisHandler`. Each stage reads the tables the
 * previous stages produced and returns a new long-format table; the
 * lemmas beside each stage state what the result means.
 *
 * Every division the C# code performs is guarded here by a precondition
 * that the divisor is non-zero (in the C# program a zero divisor yields an
 * infinity or NaN instead).
 */
module Stages {
  import opened Tables
  import opened Numerics

  // ---------------------------------------------------------------------
  // Vector normalisation: r_ij = x_ij / sqrt(sum_i x_ij^2)

  /** The Euclidean length of column `c`:
      `Math.Sqrt(Where(x => x.Criterion == c).Select(x => x.Value * x.Value).Sum())`. */
  function Norm(math: MathLib, m: seq<Index>, c: string): real
  {
    Sqrt(math, Sum(Squares(Column(m, c))))
  }

  /** No column of `m` has length zero, so the vector normalisation divides by non-zero numbers. */
  predicate NonZeroNorms(math: MathLib, m: seq<Index>)
  {
    forall i :: 0 <= i < |m| ==> Norm(math, m, m[i].criterion) != 0.0
  }

  /** Each value divided by the length of its column; a value is zero
      exactly when it was zero before. */
  function NormalizedVectorDecisionMatrix(math: MathLib, dm: seq<Index>): (r: seq<Index>)
    requires NonZeroNorms(math, dm)
    ensures SameLabels(r, dm)
    ensures forall i :: 0 <= i < |r| ==> (r[i].value == 0.0 <==> dm[i].value == 0.0)
  {
    seq(|dm|, i requires 0 <= i < |dm| =>
      Index(dm[i].option, dm[i].criterion, dm[i].value / Norm(math, dm, dm[i].criterion)))
  }

  /** Every column of the vector-normalised matrix has unit length: its
      squares sum to 1. */
  lemma VectorColumnsUnit(math: MathLib, dm: seq<Index>, c: string)
    requires Valid(math)
    requires NonZeroNorms(math, dm)
    requires c in Criteria(dm)
    ensures Sum(Squares(Column(NormalizedVectorDecisionMatrix(math, dm), c))) == 1.0
  {
    VectorColumn(math, dm, c);
    NormalizedByLength(math, Column(dm, c), Column(NormalizedVectorDecisionMatrix(math, dm), c));
  }

  /** A sequence divided by its Euclidean length has unit length. */
  lemma NormalizedByLength(math: MathLib, s: seq<real>, u: seq<real>)
    requires Valid(math)
    requires Sqrt(math, Sum(Squares(s))) != 0.0
    requires |s| == |u|
    requires forall j :: 0 <= j < |s| ==> u[j] == s[j] / Sqrt(math, Sum(Squares(s)))
    ensures Sum(Squares(u)) == 1.0
  {
    SquaresNonNegative(s);
    SqrtAt(math, Sum(Squares(s)));
    UnitSquares(s, u, Sqrt(math, Sum(Squares(s))));
  }

  /** Column `c` of the vector-normalised matrix is column `c` of `dm`
      divided by its length. */
  lemma VectorColumn(math: MathLib, dm: seq<Index>, c: string)
    requires NonZeroNorms(math, dm)
    requires c in Criteria(dm)
    ensures Norm(math, dm, c) != 0.0
    ensures |Column(NormalizedVectorDecisionMatrix(math, dm), c)| == |Column(dm, c)|
    ensures forall j :: 0 <= j < |Column(dm, c)| ==>
      Column(NormalizedVectorDecisionMatrix(math, dm), c)[j] == Column(dm, c)[j] / Norm(math, dm, c)
  {
    var i :| 0 <= i < |dm| && Criteria(dm)[i] == c;
    assert dm[i].criterion == c;
    ColumnDivided(dm, NormalizedVectorDecisionMatrix(math, dm), c, Norm(math, dm, c));
  }

  // ---------------------------------------------------------------------
  // Sum normalisation: p_ij = x_ij / sum_i x_ij

  /** The total of column `c`: `Where(x => x.Criterion == c).Select(x => x.Value).Sum()`. */
  function Total(m: seq<Index>, c: string): real
  {
    Sum(Column(m, c))
  }

  /** No column of `m` sums to zero. */
  predicate NonZeroTotals(m: seq<Index>)
  {
    forall i :: 0 <= i < |m| ==> Total(m, m[i].criterion) != 0.0
  }

  /** Each value divided by the total of its column. */
  function NormalizedDecisionMatrix(dm: seq<Index>): (r: seq<Index>)
    requires NonZeroTotals(dm)
    ensures SameLabels(r, dm)
  {
    seq(|dm|, i requires 0 <= i < |dm| =>
      Index(dm[i].option, dm[i].criterion, dm[i].value / Total(dm, dm[i].criterion)))
  }

  /** Every column of the sum-normalised matrix sums to 1. */
  lemma NormalizedColumnsSumToOne(dm: seq<Index>, c: string)
    requires NonZeroTotals(dm)
    requires c in Criteria(dm)
    ensures Sum(Column(NormalizedDecisionMatrix(dm), c)) == 1.0
  {
    var r := NormalizedDecisionMatrix(dm);
    var i :| 0 <= i < |dm| && Criteria(dm)[i] == c;
    var t := Total(dm, c);
    assert t != 0.0 by { assert dm[i].criterion == c; }
    ColumnDivided(dm, r, c, t);
    SumDivided(Column(dm, c), Column(r, c), t);
    DivSelf(t);
  }

  /** For a matrix of positive values no column total is zero, and every
      sum-normalised value lies in (0, 1]. */
  lemma NormalizedPositive(dm: seq<Index>)
    requires forall i :: 0 <= i < |dm| ==> 0.0 < dm[i].value
    ensures NonZeroTotals(dm)
    ensures forall i :: 0 <= i < |dm| ==> 0.0 < NormalizedDecisionMatrix(dm)[i].value <= 1.0
  {
    forall i | 0 <= i < |dm|
      ensures 0.0 < dm[i].value <= Total(dm, dm[i].criterion)
    {
      ColumnBoundsEntry(dm, i);
    }
    forall i | 0 <= i < |dm|
      ensures 0.0 < NormalizedDecisionMatrix(dm)[i].value <= 1.0
    {
      DivAtMostOne(dm[i].value, Total(dm, dm[i].criterion));
    }
  }

  /** In a matrix of positive values, each value is at most its column total. */
  lemma ColumnBoundsEntry(dm: seq<Index>, i: int)
    requires forall i :: 0 <= i < |dm| ==> 0.0 < dm[i].value
    requires 0 <= i < |dm|
    ensures dm[i].value <= Total(dm, dm[i].criterion)
  {
    var c := dm[i].criterion;
    var s := Column(dm, c);
    ColumnMembers(dm, c);
    assert dm[i].value in s;
    forall j | 0 <= j < |s|
      ensures 0.0 < s[j]
    {
      assert s[j] in s;
    }
    SumBoundsTerms(s);
  }

  // ---------------------------------------------------------------------
  // Entropy: e_j = -1 / log10(m) * sum_i p_ij ln p_ij

  /** The number of distinct options (alternatives) of a table. */
  function OptionCount(m: seq<Index>): nat
  {
    |Distinct(Options(m))|
  }

  /** Every share is positive, so its natural logarithm is defined. In the
      C# code a zero share gives `0 * Math.Log(0)`, that is `0 * -infinity`,
      and a negative one `Math.Log` of a negative number: NaN in both cases. */
  predicate PositiveShares(p: seq<Index>)
  {
    forall i :: 0 <= i < |p| ==> 0.0 < p[i].value
  }

  /** `Select(x => x.Value * Math.Log(x.Value))` */
  function EntropyTerms(math: MathLib, s: seq<real>): seq<real>
  {
    seq(|s|, j requires 0 <= j < |s| => s[j] * Log(math, s[j]))
  }

  /** The entropy of column `c` of the sum-normalised matrix `p`. As in the
      C# code, the scale factor uses the decimal logarithm of the option
      count while the terms use the natural logarithm. */
  function Entropy(math: MathLib, p: seq<Index>, c: string): real
    requires Log10(math, OptionCount(p) as real) != 0.0
    requires PositiveShares(p)
  {
    -1.0 / Log10(math, OptionCount(p) as real) * Sum(EntropyTerms(math, Column(p, c)))
  }

  /** One entropy entry per row of `p`, labelled "e", before deduplication. */
  function EntropyRows(math: MathLib, p: seq<Index>): (r: seq<Index>)
    requires Log10(math, OptionCount(p) as real) != 0.0
    requires PositiveShares(p)
  {
    seq(|p|, i requires 0 <= i < |p| => Index("e", p[i].criterion, Entropy(math, p, p[i].criterion)))
  }

  /** The entropy vector: the per-row entries deduplicated by value. */
  function EntropyVector(math: MathLib, p: seq<Index>): seq<Index>
    requires Log10(math, OptionCount(p) as real) != 0.0
    requires PositiveShares(p)
  {
    Distinct(EntropyRows(math, p))
  }

  /** Deduplicating by value leaves exactly one entropy entry per criterion,
      in order of first appearance. */
  lemma EntropyVectorEntries(math: MathLib, p: seq<Index>)
    requires Log10(math, OptionCount(p) as real) != 0.0
    requires PositiveShares(p)
    ensures |EntropyVector(math, p)| == |Distinct(Criteria(p))|
    ensures forall k :: 0 <= k < |EntropyVector(math, p)| ==>
      EntropyVector(math, p)[k] ==
      Index("e", Distinct(Criteria(p))[k], Entropy(math, p, Distinct(Criteria(p))[k]))
  {
    var rows := EntropyRows(math, p);
    var cs := Criteria(p);
    DistinctKeyed(rows, cs);
    var d := Distinct(rows);
    forall k | 0 <= k < |d|
      ensures d[k] == Index("e", Distinct(cs)[k], Entropy(math, p, Distinct(cs)[k]))
    {
      assert d[k] in rows;
      var i :| 0 <= i < |rows| && rows[i] == d[k];
      assert rows[i] == Index("e", cs[i], Entropy(math, p, cs[i]));
    }
  }

  // ---------------------------------------------------------------------
  // Weights: w_j = (1 - e_j) / sum_k (1 - e_k)

  /** The degree of divergence `1 - e` of every entropy entry. */
  function Divergences(e: seq<Index>): (r: seq<Index>)
    ensures SameLabels(r, e)
    ensures forall i :: 0 <= i < |r| ==> r[i].value + e[i].value == 1.0
  {
    seq(|e|, i requires 0 <= i < |e| => Index(e[i].option, e[i].criterion, 1.0 - e[i].value))
  }

  /** Each divergence divided by the sum of all divergences, labelled "w". */
  function EvaluationCriteriaWeights(e: seq<Index>): (r: seq<Index>)
    requires Sum(Values(Divergences(e))) != 0.0
    ensures |r| == |e|
    ensures forall i :: 0 <= i < |r| ==> r[i].option == "w" && r[i].criterion == e[i].criterion
  {
    var d := Divergences(e);
    seq(|d|, i requires 0 <= i < |d| => Index("w", d[i].criterion, d[i].value / Sum(Values(d))))
  }

  /** The weights sum to 1. */
  lemma WeightsSumToOne(e: seq<Index>)
    requires Sum(Values(Divergences(e))) != 0.0
    ensures Sum(Values(EvaluationCriteriaWeights(e))) == 1.0
  {
    var d := Divergences(e);
    var t := Sum(Values(d));
    SumDivided(Values(d), Values(EvaluationCriteriaWeights(e)), t);
    DivSelf(t);
  }

  // ---------------------------------------------------------------------
  // Weighted normalised matrix: v_ij = r_ij * w_j

  /** Every criterion of `m` has an entry in `t`, so looking a criterion up in
      `t` with `First` succeeds. */
  predicate Covers(t: seq<Index>, m: seq<Index>)
  {
    forall i :: 0 <= i < |m| ==> m[i].criterion in Criteria(t)
  }

  /** The weight of criterion `c`: `Where(w => w.Criterion == c).First().Value`. */
  function WeightOf(w: seq<Index>, c: string): real
    requires c in Criteria(w)
  {
    FirstByCriterion(w, c).value
  }

  /** Each vector-normalised value multiplied by the weight of its criterion. */
  function WeightedNormalizedDecisionMatrix(v: seq<Index>, w: seq<Index>): (r: seq<Index>)
    requires Covers(w, v)
    ensures SameLabels(r, v)
  {
    seq(|v|, i requires 0 <= i < |v| =>
      Index(v[i].option, v[i].criterion, v[i].value * WeightOf(w, v[i].criterion)))
  }

  /** Weighting by a non-negative weight keeps the order of the values within
      a criterion. */
  lemma WeightedKeepsOrder(v: seq<Index>, w: seq<Index>, i: int, j: int)
    requires Covers(w, v)
    requires 0 <= i < |v| && 0 <= j < |v| && v[i].criterion == v[j].criterion
    requires 0.0 <= WeightOf(w, v[i].criterion)
    requires v[i].value <= v[j].value
    ensures WeightedNormalizedDecisionMatrix(v, w)[i].value <= WeightedNormalizedDecisionMatrix(v, w)[j].value
  {
    MulMonotone(v[i].value, v[j].value, WeightOf(w, v[i].criterion));
  }

  // ---------------------------------------------------------------------
  // Ideal and anti-ideal profiles

  /** `Where(x => x.Criterion == c).Select(x => x.Value).Max()` */
  function ColumnMax(m: seq<Index>, c: string): (r: real)
    requires c in Criteria(m)
    ensures forall i :: 0 <= i < |m| && m[i].criterion == c ==> m[i].value <= r
    ensures exists i :: 0 <= i < |m| && m[i].criterion == c && m[i].value == r
  {
    ColumnNonEmpty(m, c);
    ColumnMembers(m, c);
    var r := SeqMax(Column(m, c));
    assert forall i :: 0 <= i < |m| && m[i].criterion == c ==> m[i].value in Column(m, c);
    r
  }

  /** `Where(x => x.Criterion == c).Select(x => x.Value).Min()` */
  function ColumnMin(m: seq<Index>, c: string): (r: real)
    requires c in Criteria(m)
    ensures forall i :: 0 <= i < |m| && m[i].criterion == c ==> r <= m[i].value
    ensures exists i :: 0 <= i < |m| && m[i].criterion == c && m[i].value == r
  {
    ColumnNonEmpty(m, c);
    ColumnMembers(m, c);
    var r := SeqMin(Column(m, c));
    assert forall i :: 0 <= i < |m| && m[i].criterion == c ==> m[i].value in Column(m, c);
    r
  }

  /** The ideal profile: for each distinct criterion, in order of first
      appearance, an entry labelled "A+" holding the largest value of that
      criterion. */
  function PerfectSolutions(wm: seq<Index>): (r: seq<Index>)
    ensures |r| == |Distinct(Criteria(wm))|
    ensures forall k :: 0 <= k < |r| ==> r[k].option == "A+" && r[k].criterion == Distinct(Criteria(wm))[k]
    ensures Covers(r, wm)
    ensures forall k, i :: 0 <= k < |r| && 0 <= i < |wm| && wm[i].criterion == r[k].criterion ==>
      wm[i].value <= r[k].value
    ensures forall k :: 0 <= k < |r| ==>
      exists i :: 0 <= i < |wm| && wm[i].criterion == r[k].criterion && wm[i].value == r[k].value
  {
    var cs := Distinct(Criteria(wm));
    var r := seq(|cs|, k requires 0 <= k < |cs| => Index("A+", cs[k], ColumnMax(wm, cs[k])));
    ProfileCovers(wm, r);
    r
  }

  /** The anti-ideal profile: for each distinct criterion, in order of first
      appearance, an entry holding the smallest value of that criterion. As
      in the C# code, these entries are labelled "A+" as well. */
  function WorstSolutions(wm: seq<Index>): (r: seq<Index>)
    ensures |r| == |Distinct(Criteria(wm))|
    ensures forall k :: 0 <= k < |r| ==> r[k].option == "A+" && r[k].criterion == Distinct(Criteria(wm))[k]
    ensures Covers(r, wm)
    ensures forall k, i :: 0 <= k < |r| && 0 <= i < |wm| && wm[i].criterion == r[k].criterion ==>
      r[k].value <= wm[i].value
    ensures forall k :: 0 <= k < |r| ==>
      exists i :: 0 <= i < |wm| && wm[i].criterion == r[k].criterion && wm[i].value == r[k].value
  {
    var cs := Distinct(Criteria(wm));
    var r := seq(|cs|, k requires 0 <= k < |cs| => Index("A+", cs[k], ColumnMin(wm, cs[k])));
    ProfileCovers(wm, r);
    r
  }

  /** A profile with one entry per distinct criterion covers the table. */
  lemma ProfileCovers(wm: seq<Index>, r: seq<Index>)
    requires |r| == |Distinct(Criteria(wm))|
    requires forall k :: 0 <= k < |r| ==> r[k].criterion == Distinct(Criteria(wm))[k]
    ensures Covers(r, wm)
  {
    var cs := Distinct(Criteria(wm));
    forall i | 0 <= i < |wm|
      ensures wm[i].criterion in Criteria(r)
    {
      assert Criteria(wm)[i] == wm[i].criterion;
      assert wm[i].criterion in cs;
      var k :| 0 <= k < |cs| && cs[k] == wm[i].criterion;
      assert Criteria(r)[k] == r[k].criterion;
    }
  }

  /** The anti-ideal value of each criterion is at most its ideal value. */
  lemma WorstBelowPerfect(wm: seq<Index>)
    ensures |WorstSolutions(wm)| == |PerfectSolutions(wm)|
    ensures forall k :: 0 <= k < |WorstSolutions(wm)| ==>
      WorstSolutions(wm)[k].criterion == PerfectSolutions(wm)[k].criterion &&
      WorstSolutions(wm)[k].value <= PerfectSolutions(wm)[k].value
  {
    var ns, ps := WorstSolutions(wm), PerfectSolutions(wm);
    forall k | 0 <= k < |ns|
      ensures ns[k].value <= ps[k].value
    {
      assert k < |ps|;
      assert exists i :: 0 <= i < |wm| && wm[i].criterion == ps[k].criterion && wm[i].value == ps[k].value;
      var i :| 0 <= i < |wm| && wm[i].criterion == ps[k].criterion && wm[i].value == ps[k].value;
      assert ns[k].value <= wm[i].value;
    }
  }

  // ---------------------------------------------------------------------
  // Distances to the profiles: S_i = sqrt(sum_j (A_j - v_ij)^2)

  /** For every entry of `wm`, the squared difference between the profile's
      value for its criterion and the entry's value. */
  function SquaresOfDifference(math: MathLib, wm: seq<Index>, profile: seq<Index>): (r: seq<Index>)
    requires Covers(profile, wm)
    ensures SameLabels(r, wm)
  {
    seq(|wm|, i requires 0 <= i < |wm| =>
      Index(wm[i].option, wm[i].criterion,
            Pow(math, FirstByCriterion(profile, wm[i].criterion).value - wm[i].value, 2.0)))
  }

  /** For each distinct option, in order of first appearance, the Euclidean
      distance of its row from `profile`, labelled `criterion`. The C# code has
      two copies of this computation: towards the ideal profile, labelled
      "S+", and towards the anti-ideal profile, labelled "S-". */
  function IntuitiveProximity(math: MathLib, wm: seq<Index>, profile: seq<Index>, criterion: string): (r: seq<Index>)
    requires Covers(profile, wm)
    ensures |r| == OptionCount(wm)
    ensures forall k :: 0 <= k < |r| ==> r[k].option == Distinct(Options(wm))[k] && r[k].criterion == criterion
  {
    var os := Distinct(Options(wm));
    var sq := SquaresOfDifference(math, wm, profile);
    seq(|os|, k requires 0 <= k < |os| => Index(os[k], criterion, Sqrt(math, Sum(Row(sq, os[k])))))
  }

  /** A distance is non-negative, and it is zero exactly when every entry of
      that option's row equals the profile's value for its criterion. */
  lemma ProximityZero(math: MathLib, wm: seq<Index>, profile: seq<Index>, criterion: string, k: int)
    requires Valid(math)
    requires Covers(profile, wm)
    requires 0 <= k < OptionCount(wm)
    ensures 0.0 <= IntuitiveProximity(math, wm, profile, criterion)[k].value
    ensures IntuitiveProximity(math, wm, profile, criterion)[k].value == 0.0 <==>
      forall i :: 0 <= i < |wm| && wm[i].option == Distinct(Options(wm))[k] ==>
        wm[i].value == FirstByCriterion(profile, wm[i].criterion).value
  {
    var a := Distinct(Options(wm))[k];
    var sq := SquaresOfDifference(math, wm, profile);
    forall i | 0 <= i < |sq|
      ensures 0.0 <= sq[i].value
      ensures sq[i].value == 0.0 <==> wm[i].value == FirstByCriterion(profile, wm[i].criterion).value
    {
      PowAt(math, FirstByCriterion(profile, wm[i].criterion).value - wm[i].value);
    }
    RowSumZero(sq, a);
    SqrtAt(math, Sum(Row(sq, a)));
  }

  // ---------------------------------------------------------------------
  // Relative closeness: C_i = S-_i / (S-_i + S+_i)

  /** Every option of `sMinus` has a distance in `sPlus`. */
  predicate Paired(sMinus: seq<Index>, sPlus: seq<Index>)
  {
    forall i :: 0 <= i < |sMinus| ==> sMinus[i].option in Options(sPlus)
  }

  /** The distance to the ideal profile recorded in `sPlus` for option `a`:
      `Where(y => y.Option == a).First().Value`. */
  function IdealDistance(sPlus: seq<Index>, a: string): real
    requires a in Options(sPlus)
  {
    FirstByOption(sPlus, a).value
  }

  /** No option's two distances sum to zero. */
  predicate NonZeroProximitySums(sMinus: seq<Index>, sPlus: seq<Index>)
    requires Paired(sMinus, sPlus)
  {
    forall i :: 0 <= i < |sMinus| ==> sMinus[i].value + IdealDistance(sPlus, sMinus[i].option) != 0.0
  }

  /** For each entry of `sMinus`, the relative closeness of its option to the
      ideal, labelled "C". */
  function RelativeProximityCoefficient(sMinus: seq<Index>, sPlus: seq<Index>): (r: seq<Index>)
    requires Paired(sMinus, sPlus) && NonZeroProximitySums(sMinus, sPlus)
    ensures |r| == |sMinus|
    ensures forall i :: 0 <= i < |r| ==> r[i].option == sMinus[i].option && r[i].criterion == "C"
  {
    seq(|sMinus|, i requires 0 <= i < |sMinus| =>
      Index(sMinus[i].option, "C",
            sMinus[i].value / (sMinus[i].value + IdealDistance(sPlus, sMinus[i].option))))
  }

  /** With non-negative distances, every closeness lies in [0, 1]; it is 1
      exactly when the option sits on the ideal profile and 0 exactly when it
      sits on the anti-ideal one. */
  lemma ClosenessBounds(sMinus: seq<Index>, sPlus: seq<Index>, i: int)
    requires Paired(sMinus, sPlus) && NonZeroProximitySums(sMinus, sPlus)
    requires forall j :: 0 <= j < |sMinus| ==> 0.0 <= sMinus[j].value
    requires forall j :: 0 <= j < |sPlus| ==> 0.0 <= sPlus[j].value
    requires 0 <= i < |sMinus|
    ensures 0.0 <= RelativeProximityCoefficient(sMinus, sPlus)[i].value <= 1.0
    ensures RelativeProximityCoefficient(sMinus, sPlus)[i].value == 1.0 <==>
      IdealDistance(sPlus, sMinus[i].option) == 0.0
    ensures RelativeProximityCoefficient(sMinus, sPlus)[i].value == 0.0 <==> sMinus[i].value == 0.0
  {
    var p := FirstByOption(sPlus, sMinus[i].option);
    FirstByOptionIsFirst(sPlus, sMinus[i].option);
    assert 0.0 <= p.value;
    Ratio(sMinus[i].value, p.value);
  }
}

=== FILE: tables.dfy ===
/**
 * The long-format table every stage of the pipeline reads and writes: a
 * sequence of (option, criterion, value) triples, together with the LINQ
 * reductions the stages are written with (Where/Select by a label, Sum, Max,
 * Min, Distinct, First), each specified by its result.
 */
module Tables {
  import opened Numerics

  /** One cell of a table: an alternative (row label), a criterion (column
      label) and a value. Value equality, as for a C# record. */
  datatype Index = Index(option: string, criterion: string, value: real)

  /** The criterion labels of a table, in table order. */
  function Criteria(m: seq<Index>): seq<string>
  {
    seq(|m|, i requires 0 <= i < |m| => m[i].criterion)
  }

  /** The option labels of a table, in table order. */
  function Options(m: seq<Index>): seq<string>
  {
    seq(|m|, i requires 0 <= i < |m| => m[i].option)
  }

  /** The values of a table, in table order. */
  function Values(m: seq<Index>): seq<real>
  {
    seq(|m|, i requires 0 <= i < |m| => m[i].value)
  }

  /** Two tables carry the same (option, criterion) labels in the same order. */
  predicate SameLabels(a: seq<Index>, b: seq<Index>)
  {
    |a| == |b| &&
    forall i :: 0 <= i < |a| ==> a[i].option == b[i].option && a[i].criterion == b[i].criterion
  }

  lemma SameLabelsKeys(a: seq<Index>, b: seq<Index>)
    requires SameLabels(a, b)
    ensures Criteria(a) == Criteria(b) && Options(a) == Options(b)
  {
  }

  /** `m.Where(x => x.Criterion == c).Select(x => x.Value)`: the values of
      column `c`, in table order. */
  function Column(m: seq<Index>, c: string): (r: seq<real>)
    ensures |r| <= |m|
  {
    if m == [] then []
    else Column(m[..|m| - 1], c) + (if m[|m| - 1].criterion == c then [m[|m| - 1].value] else [])
  }

  /** `m.Where(x => x.Option == a).Select(x => x.Value)`: the values of row
      `a`, in table order. */
  function Row(m: seq<Index>, a: string): (r: seq<real>)
    ensures |r| <= |m|
  {
    if m == [] then []
    else Row(m[..|m| - 1], a) + (if m[|m| - 1].option == a then [m[|m| - 1].value] else [])
  }

  function Sum(s: seq<real>): real
  {
    if s == [] then 0.0 else Sum(s[..|s| - 1]) + s[|s| - 1]
  }

  /** `Select(x => x * x)`: the squares of a sequence, term by term. */
  function Squares(s: seq<real>): seq<real>
  {
    seq(|s|, i requires 0 <= i < |s| => s[i] * s[i])
  }

  /** `Max()` of a non-empty sequence. */
  function SeqMax(s: seq<real>): (r: real)
    requires |s| > 0
    ensures r in s
    ensures forall i :: 0 <= i < |s| ==> s[i] <= r
  {
    if |s| == 1 then s[0]
    else
      var m := SeqMax(s[1..]);
      if s[0] > m then s[0] else m
  }

  /** `Min()` of a non-empty sequence. */
  function SeqMin(s: seq<real>): (r: real)
    requires |s| > 0
    ensures r in s
    ensures forall i :: 0 <= i < |s| ==> r <= s[i]
  {
    if |s| == 1 then s[0]
    else
      var m := SeqMin(s[1..]);
      if s[0] < m then s[0] else m
  }

  /** `Distinct()`: the elements of `s`, each once, in order of first appearance. */
  function Distinct<T(==,!new)>(s: seq<T>): (r: seq<T>)
    ensures forall x :: x in r <==> x in s
    ensures forall i, j :: 0 <= i < j < |r| ==> r[i] != r[j]
  {
    if s == [] then []
    else
      var d := Distinct(s[..|s| - 1]);
      if s[|s| - 1] in d then d else d + [s[|s| - 1]]
  }

  /** Position of the first occurrence of `x` in `s`. */
  function IndexOf<T(==,!new)>(s: seq<T>, x: T): (k: nat)
    requires x in s
    ensures k < |s| && s[k] == x && x !in s[..k]
  {
    if x in s[..|s| - 1] then IndexOf(s[..|s| - 1], x) else |s| - 1
  }

  /** `First(x => x.Criterion == c)`: the earliest entry of `t` in column `c`
      (`FirstByCriterionIsFirst` shows it is the earliest). */
  function FirstByCriterion(t: seq<Index>, c: string): (r: Index)
    requires c in Criteria(t)
    ensures r.criterion == c
  {
    if t[0].criterion == c then t[0]
    else
      assert Criteria(t[1..]) == Criteria(t)[1..];
      FirstByCriterion(t[1..], c)
  }

  /** `First(x => x.Option == a)`: the earliest entry of `t` in row `a`
      (`FirstByOptionIsFirst` shows it is the earliest). */
  function FirstByOption(t: seq<Index>, a: string): (r: Index)
    requires a in Options(t)
    ensures r.option == a
  {
    if t[0].option == a then t[0]
    else
      assert Options(t[1..]) == Options(t)[1..];
      FirstByOption(t[1..], a)
  }

  /** `FirstByCriterion` returns an entry of `t`, and no earlier entry lies in
      column `c`. */
  lemma {:induction false} FirstByCriterionIsFirst(t: seq<Index>, c: string)
    requires c in Criteria(t)
    ensures exists i ::
      0 <= i < |t| && t[i] == FirstByCriterion(t, c) && forall j :: 0 <= j < i ==> t[j].criterion != c
  {
    if t[0].criterion == c {
      assert t[0] == FirstByCriterion(t, c);
    } else {
      assert Criteria(t[1..]) == Criteria(t)[1..];
      FirstByCriterionIsFirst(t[1..], c);
      var i :| 0 <= i < |t[1..]| && t[1..][i] == FirstByCriterion(t[1..], c) &&
        forall j :: 0 <= j < i ==> t[1..][j].criterion != c;
      assert t[i + 1] == FirstByCriterion(t, c);
      assert forall j :: 1 <= j < i + 1 ==> t[j].criterion != c by {
        forall j | 1 <= j < i + 1 ensures t[j].criterion != c {
          assert t[j] == t[1..][j - 1];
        }
      }
    }
  }

  /** `FirstByOption` returns an entry of `t`, and no earlier entry lies in
      row `a`. */
  lemma {:induction false} FirstByOptionIsFirst(t: seq<Index>, a: string)
    requires a in Options(t)
    ensures exists i ::
      0 <= i < |t| && t[i] == FirstByOption(t, a) && forall j :: 0 <= j < i ==> t[j].option != a
  {
    if t[0].option == a {
      assert t[0] == FirstByOption(t, a);
    } else {
      assert Options(t[1..]) == Options(t)[1..];
      FirstByOptionIsFirst(t[1..], a);
      var i :| 0 <= i < |t[1..]| && t[1..][i] == FirstByOption(t[1..], a) &&
        forall j :: 0 <= j < i ==> t[1..][j].option != a;
      assert t[i + 1] == FirstByOption(t, a);
      assert forall j :: 1 <= j < i + 1 ==> t[j].option != a by {
        forall j | 1 <= j < i + 1 ensures t[j].option != a {
          assert t[j] == t[1..][j - 1];
        }
      }
    }
  }

  // ---------------------------------------------------------------------
  // Lemmas about the reductions

  /** A sum of non-negative terms is non-negative, and zero exactly when every term is. */
  lemma {:induction false} SumNonNegative(s: seq<real>)
    requires forall j :: 0 <= j < |s| ==> 0.0 <= s[j]
    ensures 0.0 <= Sum(s)
    ensures Sum(s) == 0.0 <==> forall j :: 0 <= j < |s| ==> s[j] == 0.0
  {
    if s != [] {
      SumNonNegative(s[..|s| - 1]);
    }
  }

  /** A sum of positive terms is at least each of them. */
  lemma {:induction false} SumBoundsTerms(s: seq<real>)
    requires forall j :: 0 <= j < |s| ==> 0.0 < s[j]
    ensures forall j :: 0 <= j < |s| ==> s[j] <= Sum(s)
  {
    if s != [] {
      SumBoundsTerms(s[..|s| - 1]);
      SumNonNegative(s[..|s| - 1]);
    }
  }

  /** Every term of `Squares(s)` is non-negative, positive where `s` is
      non-zero, and their sum is non-negative. */
  lemma SquaresNonNegative(s: seq<real>)
    ensures forall j :: 0 <= j < |s| ==> 0.0 <= Squares(s)[j]
    ensures forall j :: 0 <= j < |s| && s[j] != 0.0 ==> 0.0 < Squares(s)[j]
    ensures 0.0 <= Sum(Squares(s))
  {
    forall j | 0 <= j < |s|
      ensures 0.0 <= Squares(s)[j]
      ensures s[j] != 0.0 ==> 0.0 < Squares(s)[j]
    {
      SquareNonNegative(s[j], Squares(s)[j]);
      if s[j] != 0.0 {
        SquarePositive(s[j], Squares(s)[j]);
      }
    }
    SumNonNegative(Squares(s));
  }

  /** If `q` has the labels of `p` and divides every value of column `c` by
      `t`, then so do the columns themselves, term by term. */
  lemma {:induction false} ColumnDivided(p: seq<Index>, q: seq<Index>, c: string, t: real)
    requires SameLabels(p, q)
    requires t != 0.0
    requires forall i :: 0 <= i < |p| && p[i].criterion == c ==> q[i].value == p[i].value / t
    ensures |Column(q, c)| == |Column(p, c)|
    ensures forall j :: 0 <= j < |Column(p, c)| ==> Column(q, c)[j] == Column(p, c)[j] / t
  {
    if p != [] {
      var n := |p|;
      var p', q' := p[..n - 1], q[..n - 1];
      ColumnDivided(p', q', c, t);
      if p[n - 1].criterion == c {
        assert Column(p, c) == Column(p', c) + [p[n - 1].value];
        assert Column(q, c) == Column(q', c) + [q[n - 1].value];
      } else {
        assert Column(q, c) == Column(q', c);
      }
    }
  }

  /** Dividing every term by `t` divides the sum by `t`. */
  lemma {:induction false} SumDivided(s: seq<real>, u: seq<real>, t: real)
    requires t != 0.0
    requires |s| == |u|
    requires forall j :: 0 <= j < |s| ==> u[j] == s[j] / t
    ensures Sum(u) == Sum(s) / t
  {
    if s == [] {
      ZeroDiv(t);
    } else {
      SumDivided(s[..|s| - 1], u[..|u| - 1], t);
      DivSum(Sum(s[..|s| - 1]), s[|s| - 1], t);
    }
  }

  /** Dividing a sequence by its Euclidean length `n` (`n * n` is its sum
      of squares) gives a sequence whose squares sum to 1. */
  lemma UnitSquares(s: seq<real>, u: seq<real>, n: real)
    requires n != 0.0 && n * n == Sum(Squares(s)) && Sum(Squares(s)) != 0.0
    requires |s| == |u|
    requires forall j :: 0 <= j < |s| ==> u[j] == s[j] / n
    ensures Sum(Squares(u)) == 1.0
  {
    var q := Sum(Squares(s));
    SquaresDivided(s, u, n, q);
    SumDivided(Squares(s), Squares(u), q);
    DivSelf(q);
  }

  /** Dividing every term by `t` divides every square by `q == t * t`. */
  lemma SquaresDivided(s: seq<real>, u: seq<real>, t: real, q: real)
    requires t != 0.0 && q == t * t && q != 0.0
    requires |s| == |u|
    requires forall j :: 0 <= j < |s| ==> u[j] == s[j] / t
    ensures forall j :: 0 <= j < |s| ==> Squares(u)[j] == Squares(s)[j] / q
  {
    forall j | 0 <= j < |s|
      ensures Squares(u)[j] == Squares(s)[j] / q
    {
      SquareDivided(s[j], t, q);
    }
  }

  /** The values in column `c` are exactly the values of the entries labelled `c`. */
  lemma {:induction false} ColumnMembers(m: seq<Index>, c: string)
    ensures forall x :: x in Column(m, c) <==> exists i :: 0 <= i < |m| && m[i].criterion == c && m[i].value == x
  {
    if m != [] {
      var m' := m[..|m| - 1];
      ColumnMembers(m', c);
      assert forall i :: 0 <= i < |m'| ==> m'[i] == m[i];
    }
  }

  /** A label that occurs in the table has a non-empty column. */
  lemma ColumnNonEmpty(m: seq<Index>, c: string)
    requires c in Criteria(m)
    ensures |Column(m, c)| > 0
  {
    var i :| 0 <= i < |m| && Criteria(m)[i] == c;
    ColumnMembers(m, c);
    assert m[i].value in Column(m, c);
  }

  /** A row of non-negative values has a non-negative sum, which is zero
      exactly when every value in that row is zero. */
  lemma {:induction false} RowSumZero(m: seq<Index>, a: string)
    requires forall i :: 0 <= i < |m| ==> 0.0 <= m[i].value
    ensures 0.0 <= Sum(Row(m, a))
    ensures Sum(Row(m, a)) == 0.0 <==> forall i :: 0 <= i < |m| && m[i].option == a ==> m[i].value == 0.0
  {
    if m != [] {
      var n := |m|;
      var m', v := m[..n - 1], m[n - 1];
      RowSumZero(m', a);
      var r' := Row(m', a);
      if v.option == a {
        assert Row(m, a) == r' + [v.value];
        assert (r' + [v.value])[..|r'|] == r';
      } else {
        assert Row(m, a) == r';
      }
      assert (forall i :: 0 <= i < n && m[i].option == a ==> m[i].value == 0.0) <==>
        (forall i :: 0 <= i < n - 1 && m'[i].option == a ==> m'[i].value == 0.0) &&
        (v.option == a ==> v.value == 0.0);
    }
  }

  /** The first positions of `Distinct(s)`'s elements in `s` increase:
      `Distinct` keeps first-appearance order. */
  lemma {:induction false} DistinctFirstAppearance<T(!new)>(s: seq<T>)
    ensures forall i, j :: 0 <= i < j < |Distinct(s)| ==>
      IndexOf(s, Distinct(s)[i]) < IndexOf(s, Distinct(s)[j])
  {
    if s != [] {
      var s' := s[..|s| - 1];
      var y := s[|s| - 1];
      DistinctFirstAppearance(s');
      var d := Distinct(s');
      forall x | x in s'
        ensures IndexOf(s, x) == IndexOf(s', x)
      {
      }
      if y !in d {
        assert Distinct(s) == d + [y];
        assert IndexOf(s, y) == |s| - 1;
      }
    }
  }

  /** When `r` is `s` with each label expanded to an entry that depends on the
      label alone (and carries it as its criterion), deduplicating `r` gives
      one entry per distinct label, in the same order as `Distinct(s)`. */
  lemma {:induction false} DistinctKeyed(r: seq<Index>, s: seq<string>)
    requires |r| == |s|
    requires forall i :: 0 <= i < |r| ==> r[i].criterion == s[i]
    requires forall i, j :: 0 <= i < |r| && 0 <= j < |r| && s[i] == s[j] ==> r[i] == r[j]
    ensures |Distinct(r)| == |Distinct(s)|
    ensures forall k :: 0 <= k < |Distinct(r)| ==> Distinct(r)[k].criterion == Distinct(s)[k]
  {
    if r != [] {
      var n := |r|;
      var r', s' := r[..n - 1], s[..n - 1];
      DistinctKeyed(r', s');
      var dr, ds := Distinct(r'), Distinct(s');
      if r[n - 1] in dr {
        var i :| 0 <= i < n - 1 && r'[i] == r[n - 1];
        assert s[i] == s[n - 1];
        assert s[n - 1] in ds;
      }
    }
  }
}

=== FILE: topsis_handler.dfy ===
/**
 * `TopsisHandler`: holds a decision matrix and, when `Handle` runs, fills
 * one field per stage of TOPSIS with entropy weights, ranks the options
 * and returns the one with the largest relative closeness to the ideal.
 *
 * `Run` is the specification of `Handle`: the tables it computes, stage by
 * stage, and the entry it returns, or the first stage at which the C# code
 * would divide by zero or take the logarithm of a non-positive share.
 */
module Topsis {
  import opened Tables
  import opened Numerics
  import opened Stages
  import opened Ranking

  /** The tables `Handle` computes, in the order it computes them, and the
      entry it returns. */
  datatype Outcome = Outcome(
    normalizedVector: seq<Index>,
    normalized: seq<Index>,
    entropy: seq<Index>,
    weights: seq<Index>,
    weighted: seq<Index>,
    perfect: seq<Index>,
    worst: seq<Index>,
    toIdeal: seq<Index>,
    toWorst: seq<Index>,
    closeness: seq<Index>,
    rating: seq<Index>,
    best: Index)

  /** The divisions by zero and logarithms outside their domain that stop
      the computation, in the order the stages would meet them. */
  datatype Degeneracy =
    | ZeroColumnLength      // a column of the decision matrix has Euclidean length 0
    | ZeroColumnTotal       // a column of the decision matrix sums to 0
    | ZeroLogOfOptionCount  // log10 of the option count is 0
    | NonPositiveShare      // a share of the sum-normalised matrix is 0 or negative, outside the logarithm's domain
    | ZeroDivergenceTotal   // the divergences 1 - e sum to 0
    | ZeroDistanceSum       // an option's two distances sum to 0

  datatype Result<T, E> = Success(value: T) | Failure(error: E)

  /** The whole computation of `Handle` on decision matrix `dm`: the table
      of every stage and the entry it returns, or the first division by zero
      or logarithm outside its domain that it meets. */
  function Run(math: MathLib, dm: seq<Index>): (r: Result<Outcome, Degeneracy>)
    ensures r.Success? ==> Weighable(math, dm) && Separable(math, dm)
    ensures r.Success? ==> |r.value.closeness| == OptionCount(dm) && |dm| > 0
  {
    if !NonZeroNorms(math, dm) then Failure(ZeroColumnLength)
    else if !NonZeroTotals(dm) then Failure(ZeroColumnTotal)
    else if Log10(math, OptionCount(NormalizedDecisionMatrix(dm)) as real) == 0.0 then
      Failure(ZeroLogOfOptionCount)
    else if !PositiveShares(NormalizedDecisionMatrix(dm)) then Failure(NonPositiveShare)
    else if Sum(Values(Divergences(EntropyVector(math, NormalizedDecisionMatrix(dm))))) == 0.0 then
      Failure(ZeroDivergenceTotal)
    else if !Separable(math, dm) then Failure(ZeroDistanceSum)
    else
      var wm := Weighted(math, dm);
      SameOptionCount(dm, wm);
      NonEmptyInput(math, dm);
      OptionsNonEmpty(dm);
      var c := Closeness(math, dm);
      Success(Outcome(
        NormalizedVectorDecisionMatrix(math, dm), NormalizedDecisionMatrix(dm),
        EntropyVector(math, NormalizedDecisionMatrix(dm)), Weights(math, dm), wm,
        PerfectSolutions(wm), WorstSolutions(wm), ToIdeal(math, dm), ToWorst(math, dm),
        c, Rating(OptionCount(dm), c), MaxBy(c)))
  }

  /** No division by zero and no logarithm outside its domain occurs up to
      and including the weights. */
  predicate Weighable(math: MathLib, dm: seq<Index>)
  {
    NonZeroNorms(math, dm) && NonZeroTotals(dm) &&
    Log10(math, OptionCount(NormalizedDecisionMatrix(dm)) as real) != 0.0 &&
    PositiveShares(NormalizedDecisionMatrix(dm)) &&
    Sum(Values(Divergences(EntropyVector(math, NormalizedDecisionMatrix(dm))))) != 0.0
  }

  /** The criteria weights computed from `dm`. */
  function Weights(math: MathLib, dm: seq<Index>): seq<Index>
    requires Weighable(math, dm)
  {
    EvaluationCriteriaWeights(EntropyVector(math, NormalizedDecisionMatrix(dm)))
  }

  /** The weighted normalised decision matrix computed from `dm`. */
  function Weighted(math: MathLib, dm: seq<Index>): (wm: seq<Index>)
    requires Weighable(math, dm)
    ensures SameLabels(wm, dm)
  {
    WeightsCover(math, dm);
    WeightedNormalizedDecisionMatrix(NormalizedVectorDecisionMatrix(math, dm), Weights(math, dm))
  }

  /** Each option's distance to the ideal profile, computed from `dm`. */
  function ToIdeal(math: MathLib, dm: seq<Index>): seq<Index>
    requires Weighable(math, dm)
  {
    IntuitiveProximity(math, Weighted(math, dm), PerfectSolutions(Weighted(math, dm)), "S+")
  }

  /** Each option's distance to the anti-ideal profile, computed from `dm`. */
  function ToWorst(math: MathLib, dm: seq<Index>): seq<Index>
    requires Weighable(math, dm)
  {
    IntuitiveProximity(math, Weighted(math, dm), WorstSolutions(Weighted(math, dm)), "S-")
  }

  /** No option's two distances sum to zero. */
  predicate Separable(math: MathLib, dm: seq<Index>)
    requires Weighable(math, dm)
  {
    var wm := Weighted(math, dm);
    DistancesPaired(math, wm, PerfectSolutions(wm), WorstSolutions(wm));
    NonZeroProximitySums(ToWorst(math, dm), ToIdeal(math, dm))
  }

  /** Each option's relative closeness to the ideal, computed from `dm`. */
  function Closeness(math: MathLib, dm: seq<Index>): (r: seq<Index>)
    requires Weighable(math, dm) && Separable(math, dm)
    ensures |r| == OptionCount(Weighted(math, dm))
  {
    var wm := Weighted(math, dm);
    DistancesPaired(math, wm, PerfectSolutions(wm), WorstSolutions(wm));
    RelativeProximityCoefficient(ToWorst(math, dm), ToIdeal(math, dm))
  }

  /** Every criterion of the decision matrix receives a weight. */
  lemma WeightsCover(math: MathLib, dm: seq<Index>)
    requires Weighable(math, dm)
    ensures Covers(EvaluationCriteriaWeights(EntropyVector(math, NormalizedDecisionMatrix(dm))),
                   NormalizedVectorDecisionMatrix(math, dm))
  {
    var p := NormalizedDecisionMatrix(dm);
    var v := NormalizedVectorDecisionMatrix(math, dm);
    var e := EntropyVector(math, p);
    EntropyVectorEntries(math, p);
    var w := EvaluationCriteriaWeights(e);
    var cs := Distinct(Criteria(p));
    forall i | 0 <= i < |v|
      ensures v[i].criterion in Criteria(w)
    {
      assert Criteria(p)[i] == v[i].criterion;
      assert v[i].criterion in cs;
      var k :| 0 <= k < |cs| && cs[k] == v[i].criterion;
      assert w[k].criterion == e[k].criterion == cs[k];
      assert Criteria(w)[k] == w[k].criterion;
    }
  }

  /** Both distance tables list the same options, so each option's distance to
      the ideal can be looked up. */
  lemma DistancesPaired(math: MathLib, wm: seq<Index>, ps: seq<Index>, ns: seq<Index>)
    requires Covers(ps, wm) && Covers(ns, wm)
    ensures Paired(IntuitiveProximity(math, wm, ns, "S-"), IntuitiveProximity(math, wm, ps, "S+"))
  {
    var sp := IntuitiveProximity(math, wm, ps, "S+");
    var sn := IntuitiveProximity(math, wm, ns, "S-");
    forall i | 0 <= i < |sn|
      ensures sn[i].option in Options(sp)
    {
      assert Options(sp)[i] == sp[i].option;
    }
  }

  /** `Separable` restated for the weighted matrix `wm` itself. */
  lemma SeparableWeighted(math: MathLib, dm: seq<Index>, wm: seq<Index>)
    requires Weighable(math, dm) && Separable(math, dm) && wm == Weighted(math, dm)
    ensures |wm| == |dm|
    ensures Paired(IntuitiveProximity(math, wm, WorstSolutions(wm), "S-"), IntuitiveProximity(math, wm, PerfectSolutions(wm), "S+"))
    ensures NonZeroProximitySums(IntuitiveProximity(math, wm, WorstSolutions(wm), "S-"),
                                 IntuitiveProximity(math, wm, PerfectSolutions(wm), "S+"))
  {
    DistancesPaired(math, wm, PerfectSolutions(wm), WorstSolutions(wm));
  }

  /** Tables with the same labels have the same option count. */
  lemma SameOptionCount(a: seq<Index>, b: seq<Index>)
    requires SameLabels(a, b)
    ensures OptionCount(a) == OptionCount(b)
  {
    SameLabelsKeys(a, b);
  }

  lemma NonEmptyInput(math: MathLib, dm: seq<Index>)
    requires Weighable(math, dm)
    ensures |dm| > 0
  {
  }

  /** An input of positive values with at least two options never divides by
      zero in the two normalisations or in the entropy, and every share it
      takes the logarithm of is positive. */
  lemma PositiveInputNormalizes(math: MathLib, dm: seq<Index>)
    requires Valid(math)
    requires forall i :: 0 <= i < |dm| ==> 0.0 < dm[i].value
    requires 2 <= OptionCount(dm)
    ensures NonZeroNorms(math, dm) && NonZeroTotals(dm)
    ensures Log10(math, OptionCount(NormalizedDecisionMatrix(dm)) as real) != 0.0
    ensures PositiveShares(NormalizedDecisionMatrix(dm))
  {
    forall i | 0 <= i < |dm|
      ensures Norm(math, dm, dm[i].criterion) != 0.0
    {
      PositiveNorm(math, dm, i);
    }
    NormalizedPositive(dm);
    SameOptionCount(dm, NormalizedDecisionMatrix(dm));
  }

  /** On an input of positive values with at least two options, `Run` can
      only fail for lack of divergence or of distance. */
  lemma PositiveInputFailures(math: MathLib, dm: seq<Index>)
    requires Valid(math)
    requires forall i :: 0 <= i < |dm| ==> 0.0 < dm[i].value
    requires 2 <= OptionCount(dm)
    ensures Run(math, dm).Failure? ==> Run(math, dm).error == ZeroDivergenceTotal || Run(math, dm).error == ZeroDistanceSum
  {
    PositiveInputNormalizes(math, dm);
  }

  /** An input of positive values with a single option fails at the
      entropy's scale factor, `1 / log10(1)`. */
  lemma SingleOptionFails(math: MathLib, dm: seq<Index>)
    requires Valid(math)
    requires forall i :: 0 <= i < |dm| ==> 0.0 < dm[i].value
    requires OptionCount(dm) == 1
    ensures Run(math, dm) == Failure(ZeroLogOfOptionCount)
  {
    forall i | 0 <= i < |dm|
      ensures Norm(math, dm, dm[i].criterion) != 0.0
    {
      PositiveNorm(math, dm, i);
    }
    NormalizedPositive(dm);
    SameOptionCount(dm, NormalizedDecisionMatrix(dm));
  }

  /** A zero anywhere in the decision matrix makes the computation fail: if
      no earlier stage divides by zero, its share is 0 and lies outside the
      logarithm's domain. */
  lemma ZeroValueFails(math: MathLib, dm: seq<Index>, i: int)
    requires 0 <= i < |dm| && dm[i].value == 0.0
    ensures Run(math, dm).Failure?
    ensures Run(math, dm).error in {ZeroColumnLength, ZeroColumnTotal, ZeroLogOfOptionCount, NonPositiveShare}
  {
    if NonZeroTotals(dm) {
      ZeroDiv(Total(dm, dm[i].criterion));
      assert NormalizedDecisionMatrix(dm)[i].value == 0.0;
    }
  }

  /** The column of a positive entry has positive Euclidean length. */
  lemma PositiveNorm(math: MathLib, dm: seq<Index>, i: int)
    requires Valid(math)
    requires forall i :: 0 <= i < |dm| ==> 0.0 < dm[i].value
    requires 0 <= i < |dm|
    ensures Norm(math, dm, dm[i].criterion) != 0.0
  {
    var col := Column(dm, dm[i].criterion);
    ColumnMembers(dm, dm[i].criterion);
    assert dm[i].value in col;
    var j :| 0 <= j < |col| && col[j] == dm[i].value;
    SquaresNonNegative(col);
    SumNonNegative(Squares(col));
    SqrtAt(math, Sum(Squares(col)));
  }

  /** Whenever the computation succeeds, every relative closeness lies in [0, 1]. */
  lemma ClosenessInUnitInterval(math: MathLib, dm: seq<Index>)
    requires Valid(math)
    requires Run(math, dm).Success?
    ensures forall i :: 0 <= i < |Run(math, dm).value.closeness| ==>
      0.0 <= Run(math, dm).value.closeness[i].value <= 1.0
  {
    var wm := Weighted(math, dm);
    var sp, sn := ToIdeal(math, dm), ToWorst(math, dm);
    assert Run(math, dm).value.closeness == Closeness(math, dm);
    forall k | 0 <= k < OptionCount(wm)
      ensures 0.0 <= sp[k].value && 0.0 <= sn[k].value
    {
      ProximityZero(math, wm, PerfectSolutions(wm), "S+", k);
      ProximityZero(math, wm, WorstSolutions(wm), "S-", k);
    }
    DistancesPaired(math, wm, PerfectSolutions(wm), WorstSolutions(wm));
    forall i | 0 <= i < |sn|
      ensures 0.0 <= Closeness(math, dm)[i].value <= 1.0
    {
      ClosenessBounds(sn, sp, i);
    }
  }

  /** A non-empty table lists at least one option. */
  lemma OptionsNonEmpty(m: seq<Index>)
    requires |m| > 0
    ensures OptionCount(m) > 0
  {
    assert Options(m)[0] in Options(m);
  }

  // ---------------------------------------------------------------------
  // The handler

  /** The handler's state: the decision matrix it was built with and one
      table per stage, each empty until `Handle` computes it. */
  class TopsisHandler {
    const decisionMatrix: seq<Index>
    var normalizedVectorDecisionMatrix: seq<Index>
    var normalizedDecisionMatrix: seq<Index>
    var entropyVector: seq<Index>
    var evaluationCriteriaWeights: seq<Index>
    var weightedNormalizedDecisionMatrix: seq<Index>
    var perfectSolutions: seq<Index>
    var worstSolutions: seq<Index>
    var intuitiveProximityToIdealSolution: seq<Index>
    var intuitiveProximityToWorstSolution: seq<Index>
    var relativeProximityCoefficient: seq<Index>
    var rating: seq<Index>

    /** Keeps its own copy of the decision matrix. */
    constructor (decisionMatrix: seq<Index>)
      ensures this.decisionMatrix == decisionMatrix
      ensures normalizedVectorDecisionMatrix == [] && normalizedDecisionMatrix == []
      ensures entropyVector == [] && evaluationCriteriaWeights == []
      ensures weightedNormalizedDecisionMatrix == [] && perfectSolutions == [] && worstSolutions == []
      ensures intuitiveProximityToIdealSolution == [] && intuitiveProximityToWorstSolution == []
      ensures relativeProximityCoefficient == [] && rating == []
    {
      this.decisionMatrix := decisionMatrix;
      normalizedVectorDecisionMatrix, normalizedDecisionMatrix := [], [];
      entropyVector, evaluationCriteriaWeights := [], [];
      weightedNormalizedDecisionMatrix, perfectSolutions, worstSolutions := [], [], [];
      intuitiveProximityToIdealSolution, intuitiveProximityToWorstSolution := [], [];
      relativeProximityCoefficient, rating := [], [];
    }

    /** Runs every stage in turn, ranks the options and returns the entry of
        largest relative closeness. */
    method Handle(math: MathLib) returns (best: Index)
      requires Weighable(math, decisionMatrix) && Separable(math, decisionMatrix)
      modifies this`normalizedVectorDecisionMatrix, this`normalizedDecisionMatrix
      modifies this`entropyVector, this`evaluationCriteriaWeights
      modifies this`weightedNormalizedDecisionMatrix, this`perfectSolutions, this`worstSolutions
      modifies this`intuitiveProximityToIdealSolution, this`intuitiveProximityToWorstSolution
      modifies this`relativeProximityCoefficient, this`rating
      ensures normalizedVectorDecisionMatrix == NormalizedVectorDecisionMatrix(math, decisionMatrix)
      ensures normalizedDecisionMatrix == NormalizedDecisionMatrix(decisionMatrix)
      ensures entropyVector == EntropyVector(math, normalizedDecisionMatrix)
      ensures evaluationCriteriaWeights == Weights(math, decisionMatrix)
      ensures weightedNormalizedDecisionMatrix == Weighted(math, decisionMatrix)
      ensures perfectSolutions == PerfectSolutions(weightedNormalizedDecisionMatrix)
      ensures worstSolutions == WorstSolutions(weightedNormalizedDecisionMatrix)
      ensures intuitiveProximityToIdealSolution ==
        IntuitiveProximity(math, weightedNormalizedDecisionMatrix, perfectSolutions, "S+")
      ensures intuitiveProximityToWorstSolution ==
        IntuitiveProximity(math, weightedNormalizedDecisionMatrix, worstSolutions, "S-")
      ensures relativeProximityCoefficient == Closeness(math, decisionMatrix)
      ensures |relativeProximityCoefficient| == OptionCount(decisionMatrix)
      ensures rating == Rating(OptionCount(decisionMatrix), relativeProximityCoefficient)
      ensures |relativeProximityCoefficient| > 0 && best == MaxBy(relativeProximityCoefficient)
      ensures Run(math, decisionMatrix) == Success(Outcome(
        normalizedVectorDecisionMatrix, normalizedDecisionMatrix, entropyVector,
        evaluationCriteriaWeights, weightedNormalizedDecisionMatrix, perfectSolutions, worstSolutions,
        intuitiveProximityToIdealSolution, intuitiveProximityToWorstSolution, relativeProximityCoefficient,
        rating, best))
    {
      Weigh(math);
      NonEmptyInput(math, decisionMatrix);
      SameOptionCount(weightedNormalizedDecisionMatrix, decisionMatrix);
      SeparableWeighted(math, decisionMatrix, weightedNormalizedDecisionMatrix);
      best := Rank(math);
    }

    /** The first half of `Handle`: the two normalisations, the entropies,
        the weights and the weighted matrix. */
    method Weigh(math: MathLib)
      requires Weighable(math, decisionMatrix)
      modifies this`normalizedVectorDecisionMatrix, this`normalizedDecisionMatrix
      modifies this`entropyVector, this`evaluationCriteriaWeights
      modifies this`weightedNormalizedDecisionMatrix
      ensures normalizedVectorDecisionMatrix == NormalizedVectorDecisionMatrix(math, decisionMatrix)
      ensures normalizedDecisionMatrix == NormalizedDecisionMatrix(decisionMatrix)
      ensures entropyVector == EntropyVector(math, normalizedDecisionMatrix)
      ensures evaluationCriteriaWeights == Weights(math, decisionMatrix)
      ensures weightedNormalizedDecisionMatrix == Weighted(math, decisionMatrix)
    {
      CalculateNormalizedVectorDecisionMatrix(math);
      CalculateNormalizedDecisionMatrix();
      CalculateEntropyVector(math);
      CalculateEvaluationCriteriaWeights();
      WeightsCover(math, decisionMatrix);
      CalculateWeightedNormalizedDecisionMatrix();
    }

    /** The second half of `Handle`: the two profiles, the distances to them,
        the relative closeness, the rating and the best option. */
    method Rank(math: MathLib) returns (best: Index)
      requires |weightedNormalizedDecisionMatrix| > 0
      requires Paired(
        IntuitiveProximity(math, weightedNormalizedDecisionMatrix, WorstSolutions(weightedNormalizedDecisionMatrix), "S-"),
        IntuitiveProximity(math, weightedNormalizedDecisionMatrix, PerfectSolutions(weightedNormalizedDecisionMatrix), "S+"))
      requires NonZeroProximitySums(
        IntuitiveProximity(math, weightedNormalizedDecisionMatrix, WorstSolutions(weightedNormalizedDecisionMatrix), "S-"),
        IntuitiveProximity(math, weightedNormalizedDecisionMatrix, PerfectSolutions(weightedNormalizedDecisionMatrix), "S+"))
      modifies this`perfectSolutions, this`worstSolutions
      modifies this`intuitiveProximityToIdealSolution, this`intuitiveProximityToWorstSolution
      modifies this`relativeProximityCoefficient, this`rating
      ensures perfectSolutions == PerfectSolutions(weightedNormalizedDecisionMatrix)
      ensures worstSolutions == WorstSolutions(weightedNormalizedDecisionMatrix)
      ensures intuitiveProximityToIdealSolution ==
        IntuitiveProximity(math, weightedNormalizedDecisionMatrix, perfectSolutions, "S+")
      ensures intuitiveProximityToWorstSolution ==
        IntuitiveProximity(math, weightedNormalizedDecisionMatrix, worstSolutions, "S-")
      ensures relativeProximityCoefficient ==
        RelativeProximityCoefficient(intuitiveProximityToWorstSolution, intuitiveProximityToIdealSolution)
      ensures rating == Rating(OptionCount(decisionMatrix), relativeProximityCoefficient)
      ensures |relativeProximityCoefficient| > 0 && best == MaxBy(relativeProximityCoefficient)
      ensures unchanged(this`normalizedVectorDecisionMatrix, this`normalizedDecisionMatrix)
      ensures unchanged(this`entropyVector, this`evaluationCriteriaWeights, this`weightedNormalizedDecisionMatrix)
    {
      Profile();
      DistancesPaired(math, weightedNormalizedDecisionMatrix, perfectSolutions, worstSolutions);
      Separate(math);
      FormRating();
      OptionsNonEmpty(weightedNormalizedDecisionMatrix);
      best := MaxBy(relativeProximityCoefficient);
    }

    /** The column maxima and minima of the weighted matrix. */
    method Profile()
      modifies this`perfectSolutions, this`worstSolutions
      ensures perfectSolutions == PerfectSolutions(weightedNormalizedDecisionMatrix)
      ensures worstSolutions == WorstSolutions(weightedNormalizedDecisionMatrix)
      ensures unchanged(this`normalizedVectorDecisionMatrix, this`normalizedDecisionMatrix)
      ensures unchanged(this`entropyVector, this`evaluationCriteriaWeights, this`weightedNormalizedDecisionMatrix)
    {
      CalculatePerfectSolutions();
      CalculateWorstSolutions();
    }

    /** The distances of every option to the two profiles and its relative
        closeness. */
    method Separate(math: MathLib)
      requires Covers(perfectSolutions, weightedNormalizedDecisionMatrix)
      requires Covers(worstSolutions, weightedNormalizedDecisionMatrix)
      requires Paired(
        IntuitiveProximity(math, weightedNormalizedDecisionMatrix, worstSolutions, "S-"),
        IntuitiveProximity(math, weightedNormalizedDecisionMatrix, perfectSolutions, "S+"))
      requires NonZeroProximitySums(
        IntuitiveProximity(math, weightedNormalizedDecisionMatrix, worstSolutions, "S-"),
        IntuitiveProximity(math, weightedNormalizedDecisionMatrix, perfectSolutions, "S+"))
      modifies this`intuitiveProximityToIdealSolution, this`intuitiveProximityToWorstSolution
      modifies this`relativeProximityCoefficient
      ensures intuitiveProximityToIdealSolution ==
        IntuitiveProximity(math, weightedNormalizedDecisionMatrix, perfectSolutions, "S+")
      ensures intuitiveProximityToWorstSolution ==
        IntuitiveProximity(math, weightedNormalizedDecisionMatrix, worstSolutions, "S-")
      ensures relativeProximityCoefficient ==
        RelativeProximityCoefficient(intuitiveProximityToWorstSolution, intuitiveProximityToIdealSolution)
      ensures unchanged(this`normalizedVectorDecisionMatrix, this`normalizedDecisionMatrix)
      ensures unchanged(this`entropyVector, this`evaluationCriteriaWeights, this`weightedNormalizedDecisionMatrix)
      ensures unchanged(this`perfectSolutions, this`worstSolutions)
    {
      CalculateIntuitiveProximityToIdealSolution(math);
      CalculateIntuitiveProximityToWorstSolution(math);
      CalculateRelativeProximityCoefficient();
    }

    /** Divides each entry by the Euclidean length of its criterion's column. */
    method CalculateNormalizedVectorDecisionMatrix(math: MathLib)
      requires NonZeroNorms(math, decisionMatrix)
      modifies this`normalizedVectorDecisionMatrix
      ensures normalizedVectorDecisionMatrix == NormalizedVectorDecisionMatrix(math, decisionMatrix)
    {
      normalizedVectorDecisionMatrix := NormalizedVectorDecisionMatrix(math, decisionMatrix);
    }

    /** Divides each entry by the total of its criterion's column. */
    method CalculateNormalizedDecisionMatrix()
      requires NonZeroTotals(decisionMatrix)
      modifies this`normalizedDecisionMatrix
      ensures normalizedDecisionMatrix == NormalizedDecisionMatrix(decisionMatrix)
      ensures unchanged(this`normalizedVectorDecisionMatrix)
    {
      normalizedDecisionMatrix := NormalizedDecisionMatrix(decisionMatrix);
    }

    /** One entropy per criterion of the sum-normalised matrix. */
    method CalculateEntropyVector(math: MathLib)
      requires Log10(math, OptionCount(normalizedDecisionMatrix) as real) != 0.0
      requires PositiveShares(normalizedDecisionMatrix)
      modifies this`entropyVector
      ensures entropyVector == EntropyVector(math, normalizedDecisionMatrix)
      ensures unchanged(this`normalizedVectorDecisionMatrix, this`normalizedDecisionMatrix)
    {
      entropyVector := EntropyVector(math, normalizedDecisionMatrix);
    }

    /** The divergences `1 - e`, each divided by their total. */
    method CalculateEvaluationCriteriaWeights()
      requires Sum(Values(Divergences(entropyVector))) != 0.0
      modifies this`evaluationCriteriaWeights
      ensures evaluationCriteriaWeights == EvaluationCriteriaWeights(entropyVector)
      ensures unchanged(this`normalizedVectorDecisionMatrix, this`normalizedDecisionMatrix, this`entropyVector)
    {
      evaluationCriteriaWeights := EvaluationCriteriaWeights(entropyVector);
    }

    /** Multiplies each vector-normalised entry by its criterion's weight. */
    method CalculateWeightedNormalizedDecisionMatrix()
      requires Covers(evaluationCriteriaWeights, normalizedVectorDecisionMatrix)
      modifies this`weightedNormalizedDecisionMatrix
      ensures weightedNormalizedDecisionMatrix ==
        WeightedNormalizedDecisionMatrix(normalizedVectorDecisionMatrix, evaluationCriteriaWeights)
      ensures unchanged(this`normalizedVectorDecisionMatrix, this`normalizedDecisionMatrix)
      ensures unchanged(this`entropyVector, this`evaluationCriteriaWeights)
    {
      weightedNormalizedDecisionMatrix :=
        WeightedNormalizedDecisionMatrix(normalizedVectorDecisionMatrix, evaluationCriteriaWeights);
    }

    /** The column maxima of the weighted matrix. */
    method CalculatePerfectSolutions()
      modifies this`perfectSolutions
      ensures perfectSolutions == PerfectSolutions(weightedNormalizedDecisionMatrix)
    {
      perfectSolutions := PerfectSolutions(weightedNormalizedDecisionMatrix);
    }

    /** The column minima of the weighted matrix. */
    method CalculateWorstSolutions()
      modifies this`worstSolutions
      ensures worstSolutions == WorstSolutions(weightedNormalizedDecisionMatrix)
    {
      worstSolutions := WorstSolutions(weightedNormalizedDecisionMatrix);
    }

    /** Each option's distance to the ideal profile. */
    method CalculateIntuitiveProximityToIdealSolution(math: MathLib)
      requires Covers(perfectSolutions, weightedNormalizedDecisionMatrix)
      modifies this`intuitiveProximityToIdealSolution
      ensures intuitiveProximityToIdealSolution ==
        IntuitiveProximity(math, weightedNormalizedDecisionMatrix, perfectSolutions, "S+")
    {
      intuitiveProximityToIdealSolution :=
        IntuitiveProximity(math, weightedNormalizedDecisionMatrix, perfectSolutions, "S+");
    }

    /** Each option's distance to the anti-ideal profile. */
    method CalculateIntuitiveProximityToWorstSolution(math: MathLib)
      requires Covers(worstSolutions, weightedNormalizedDecisionMatrix)
      modifies this`intuitiveProximityToWorstSolution
      ensures intuitiveProximityToWorstSolution ==
        IntuitiveProximity(math, weightedNormalizedDecisionMatrix, worstSolutions, "S-")
    {
      intuitiveProximityToWorstSolution :=
        IntuitiveProximity(math, weightedNormalizedDecisionMatrix, worstSolutions, "S-");
    }

    /** Each option's relative closeness to the ideal. */
    method CalculateRelativeProximityCoefficient()
      requires Paired(intuitiveProximityToWorstSolution, intuitiveProximityToIdealSolution)
      requires NonZeroProximitySums(intuitiveProximityToWorstSolution, intuitiveProximityToIdealSolution)
      modifies this`relativeProximityCoefficient
      ensures relativeProximityCoefficient ==
        RelativeProximityCoefficient(intuitiveProximityToWorstSolution, intuitiveProximityToIdealSolution)
    {
      relativeProximityCoefficient :=
        RelativeProximityCoefficient(intuitiveProximityToWorstSolution, intuitiveProximityToIdealSolution);
    }

    /** Ranks the closeness entries: sorted ascending, the k-th of them (from
        0) receives the option count of the decision matrix minus k, the
        counter `i--` of the C# code. */
    method FormRating()
      modifies this`rating
      ensures rating == Rating(OptionCount(decisionMatrix), relativeProximityCoefficient)
      ensures unchanged(this`normalizedVectorDecisionMatrix, this`normalizedDecisionMatrix)
      ensures unchanged(this`entropyVector, this`evaluationCriteriaWeights, this`weightedNormalizedDecisionMatrix)
      ensures unchanged(this`perfectSolutions, this`worstSolutions)
      ensures unchanged(this`intuitiveProximityToIdealSolution, this`intuitiveProximityToWorstSolution)
      ensures unchanged(this`relativeProximityCoefficient)
    {
      var i: int := OptionCount(decisionMatrix);
      var sorted := OrderBy(relativeProximityCoefficient);
      var ranks: seq<Index> := [];
      for p := 0 to |sorted|
        invariant i == OptionCount(decisionMatrix) - p
        invariant ranks == Rating(OptionCount(decisionMatrix), relativeProximityCoefficient)[..p]
      {
        ranks := ranks + [Index(sorted[p].option, "Rank", i as real)];
        i := i - 1;
      }
      rating := ranks;
    }
  }
}
